=== FILE: README.md ===
# build-utilities, modelled in Dafny

`build-utilities` is a command-line helper with three subcommands. `build` clones a
GitHub project and builds it with the Go or Python toolchain into an empty output
directory. `package` runs `fpm` to turn a staged tree into a `.deb` and a `.tar`.
`deploydesc` writes a Bintray deployment descriptor for a produced package.
Almost all of the work is done by external tools. This project models the
decision logic of `src/buildutilities/__main__.py` around them:

- `results.dfy` (module `Results`): the exceptions the program raises, as an
  `Error` datatype, and the text `main` exits with for each of them.
- `paths.dfy` (module `Paths`): `os.path.join` on POSIX, and "strictly inside a
  directory", which is what `os.listdir` observes.
- `packaging.dfy` (module `Packaging`): the version sanitisation
  (`version.replace("/", "_")`) and the fpm argument vector.
- `descriptor.dfy` (module `Descriptor`): the descriptor record, its `files`
  list of upload-routing entries, and the laws of that list.
- `descriptor_json.dfy` (module `DescriptorJson`): the dictionary handed to
  `json.dump`, with the program's exact key names and order, and a reader that
  recovers the descriptor from it.
- `build_utilities.dfy` (module `BuildUtilities`): a `Host` class whose fields
  are the machine the static methods act on. `paths` holds the existing paths,
  `files` the regular files among them, `documents` the JSON documents written
  and `launched` the external processes started. Its methods are
  `generate_tmp_dir`, `generate_package`, `build_python`, `build_go`,
  `generate_bintray_descriptor` and `main` after argument parsing.

The outside world comes in as plain values (the `World` datatype):

- the successive `uuid4()` strings;
- today's date;
- the `lib` subdirectory name for site-packages: `"python"` followed by characters 0 and 2 of
  `platform.python_version()` with a dot between them (`python3.1` on Python 3.10 and later);
- whether `shutil.which("fpm")` found fpm;
- the exit code of every external process, and whether GitPython's clone succeeded.

`main` reproduces the argument swap at `__main__.py:284`.
`TargetDesc(args.arch, args.distrib, ...)` is passed positionally to a constructor
declared as `(distrib, arch, package_path)`. So the `--arch` value becomes the
descriptor's `deb_distribution` and its upload directory, and the `--distrib` value
becomes `deb_architecture`. `DeployDescRoutesArchAsDistribution` states this.

Some behaviour of the program looks unintended. The model keeps each of these as written:

- fpm is given the URL `https://www.github.com/<project>`, while the descriptor
  uses `https://github.com/<project>`.
- An fpm failure exits with the text "Error while cloning project".
- A failed `setup.py install` exits with "Error while getting dependencies project".
- The descriptor key is spelled `public_download_numebrs`.
- The package files go to the output directory itself (`-p <outputdir>`), although
  `<outputdir>/packages` is created.

## Model

| member | source | states |
|---|---|---|
| `Results.Message` | src/buildutilities/__main__.py:293-295 | the exit text is defined exactly for the exceptions the program raises itself, and absent for library and OS errors |
| `Paths.Join` | src/buildutilities/__main__.py:245 | `os.path.join`: an absolute second part wins; otherwise the result starts with the first part and ends with the second |
| `Paths.JoinInsertsOnlySeparator` | src/buildutilities/__main__.py:245 | joining a relative part yields the two parts concatenated, with at most one `/` between them and nothing else added |
| `Packaging.SanitizeVersion` | src/buildutilities/__main__.py:133 | same length as the version; each position holds `_` where the version had `/` and the same character elsewhere; no `/` remains |
| `Packaging.SanitizeIdempotent` | src/buildutilities/__main__.py:133 | sanitising twice gives the same as sanitising once |
| `Packaging.SanitizeFixesExactlySlashFree` | src/buildutilities/__main__.py:133 | the version is passed unchanged if and only if it contains no `/` |
| `Packaging.FpmArgv` | src/buildutilities/__main__.py:126-134 | the command has 19 words and starts with `fpm` |
| `Packaging.FpmArgvOptions` | src/buildutilities/__main__.py:126-134 | the command holds `-f`, `-t <type>`, `-n <name>`, `-p <outputdir>`, `-a <arch>`, `--prefix usr/local`, `--url https://www.github.com/<project>` and `-v <sanitised version>`, and ends with `-s dir .` |
| `Packaging.FpmVersionArgumentSlashFree` | src/buildutilities/__main__.py:133 | for any arguments, every word after a `-v` in the fpm command contains no `/` |
| `Descriptor.EntryFor` | src/buildutilities/__main__.py:243-251 | a target's routing entry includes exactly its package path, uploads under its distribution directory, and carries its distribution, component `main` and its architecture |
| `Descriptor.FileEntries` | src/buildutilities/__main__.py:241-252 | there are never more routing entries than targets |
| `Descriptor.BintrayDescriptor` | src/buildutilities/__main__.py:215-238 | package name and repo are the binary name and subject is the user; website, issue-tracker and VCS URLs all equal `https://github.com/<project>`; version name and VCS tag equal the version; release date is the given date; the description fills both `package.desc` and `version.desc`; licences and labels are copied unchanged; `github_use_tag_release_notes` and `publish` are true, while `public_download_numebrs`, `public_stats` and `gpgSign` are false |
| `Descriptor.FileEntriesAppend` | src/buildutilities/__main__.py:241-252 | the `files` list of a concatenated target list is the concatenation of the two `files` lists, so each target adds its own entry or none, in target order |
| `Descriptor.FileEntriesExactlyFileTargets` | src/buildutilities/__main__.py:241-243 | an entry is listed if and only if it is the routing entry of a target whose package path is a regular file |
| `Descriptor.EntriesAreRoutingRules` | src/buildutilities/__main__.py:243-251 | every entry includes a regular file, has component `main`, and uploads to `<deb_distribution>/$1` |
| `DescriptorJson.ToJson` | src/buildutilities/__main__.py:215-252 | the dumped dictionary has exactly the keys `package`, `version`, `files`, `publish`, in that order, and `publish` holds the descriptor's flag |
| `DescriptorJson.StringsRoundTrip` | src/buildutilities/__main__.py:225-226 | a licence or label list is read back unchanged from its JSON array |
| `DescriptorJson.EntryRoundTrip` | src/buildutilities/__main__.py:243-252 | one routing entry is read back unchanged from its JSON object |
| `DescriptorJson.EntriesRoundTrip` | src/buildutilities/__main__.py:237 | the whole `files` list is read back unchanged |
| `DescriptorJson.PackageRoundTrip` | src/buildutilities/__main__.py:216-229 | the `package` block is read back unchanged |
| `DescriptorJson.DescriptorRoundTrip` | src/buildutilities/__main__.py:253-254 | the dictionary dumped for a descriptor gives back that same descriptor, with nothing lost |
| `BuildUtilities.TmpCandidate` | src/buildutilities/__main__.py:109 | a candidate name that is non-empty and relative becomes `/tmp/<name>` |
| `BuildUtilities.FirstFreeFrom` | src/buildutilities/__main__.py:108-117 | success is the first candidate that does not exist, and every earlier one exists; failure is `TmpDirExhausted` when all five candidates exist |
| `BuildUtilities.AllocationUsesFirstFiveNames` | src/buildutilities/__main__.py:108 | the outcome depends only on the first five random names |
| `BuildUtilities.ParseLanguage` | src/buildutilities/__main__.py:265-274 | `python` selects the Python build and `go` the Go build; anything else fails with `InvalidLanguage` carrying the given string |
| `BuildUtilities.DeployTarget` | src/buildutilities/__main__.py:284 | the `deploydesc` target's entry includes the `--packagepath` value and has matrix parameters distribution = the `--arch` value, component `main`, architecture = the `--distrib` value |
| `BuildUtilities.GoLaunches` | src/buildutilities/__main__.py:164-186 | three processes: `git clone -b <branch> https://github.com/<project> <tmp>/go/src/github.com/<project>` in the inherited directory, then `go get -d ./...` and `go install ./...`, both run in the clone directory with `GOARCH` = the architecture, `GOPATH` = `<tmp>/go` and `CGO_ENABLED=0` |
| `BuildUtilities.PythonLaunches` | src/buildutilities/__main__.py:143-151 | two processes: the clone of `https://github.com/<project>` at the branch into `<outputdir>/src`, then `python3 ./setup.py install --prefix=<outputdir>/install` run in the clone directory with `PYTHONPATH` set to the site-packages directory |
| `BuildUtilities.DeployDescRoutesArchAsDistribution` | src/buildutilities/__main__.py:284 | the `deploydesc` descriptor has one entry if the package file exists, else none; that entry's `deb_distribution` and upload directory are the `--arch` value and its `deb_architecture` is the `--distrib` value |
| `BuildUtilities.OutputDirGuard` | src/buildutilities/__main__.py:141-142 | succeeds if and only if the directory exists, is not a file and has nothing inside it; fails with the not-empty error if and only if it is an existing directory with something inside |
| `BuildUtilities.Host.GenerateTmpDir` | src/buildutilities/__main__.py:106-117 | the result is the allocation outcome on the old paths; a returned path did not exist before and is the only path added; on failure nothing is created |
| `BuildUtilities.Host.GeneratePackage` | src/buildutilities/__main__.py:120-137 | without fpm it fails with nothing created and nothing run; if `<outputdir>/packages` is a regular file it fails with `FileExists` and runs nothing; otherwise it creates that directory, runs exactly the fpm command once from the staged tree, and fails if and only if fpm exits non-zero |
| `BuildUtilities.Host.RunPythonSteps` | src/buildutilities/__main__.py:146-154 | the clone always runs; a failed clone or a site-packages path that is a file stops before the install; otherwise the site-packages directory is created and the install runs; success if and only if it exits 0 |
| `BuildUtilities.Host.BuildPython` | src/buildutilities/__main__.py:140-154 | a failing output-directory guard returns its error with nothing run or created; otherwise the clone is run first, and the install step runs only after a successful clone, with `PYTHONPATH` set to the new site-packages directory; a failed clone fails with `RepoCloneFailed`, a site-packages path that is a file with `FileExists`, and otherwise it fails if and only if the install exits non-zero |
| `BuildUtilities.Host.RunGoSteps` | src/buildutilities/__main__.py:164-192 | the three launches (clone, `go get`, `go install`) start in order, each only after the previous one exits 0; each failing step has its own error, and an existing staging directory fails with `FileExists`; success if and only if all three exit 0 and the binary staging directory did not exist, which is then the only path added |
| `BuildUtilities.Host.BuildGo` | src/buildutilities/__main__.py:157-192 | a failing guard, or five colliding workspace names, leaves nothing run or created; otherwise clone, `go get` and `go install` run in order, each only after the previous one exits 0, with `GOARCH`, `GOPATH` and `CGO_ENABLED=0` set; each failure has its own error; the paths added are the workspace and, only when all three succeed, the binary staging directory |
| `BuildUtilities.Host.AssembleDescriptor` | src/buildutilities/__main__.py:215-252 | the record built by appending in the loop equals `BintrayDescriptor` over the current regular files |
| `BuildUtilities.Host.GenerateBintrayDescriptor` | src/buildutilities/__main__.py:204-255 | an existing output path fails with `DescriptorExists` and changes nothing; otherwise exactly that path becomes a new file holding the JSON form of the descriptor |
| `BuildUtilities.Host.RunBuild` | src/buildutilities/__main__.py:262-274 | the output directory exists afterwards; an unknown language fails with `InvalidLanguage` and changes nothing else; `python` and `go` each give exactly the outcome of their builder on the state with the directory made |
| `BuildUtilities.Host.RunPythonBuild` | src/buildutilities/__main__.py:265-268 | a failing output-directory guard changes nothing and exits with its error; otherwise the Python trace is the clone, then the install only if the clone succeeded and site-packages is not a file; a failed clone exits with `RepoCloneFailed` for the GitHub URL, a site-packages file with `FileExists`, a failed install with `SetupFailed`; site-packages is the only path added, and only when the clone succeeded and it was not a file; exit 0 if and only if the install also exited 0 |
| `BuildUtilities.Host.RunGoBuild` | src/buildutilities/__main__.py:269-272 | a failing guard changes nothing; exhausted workspace names run and create nothing; otherwise the Go trace is the prefix of clone, `go get`, `go install` up to the first failure, each failure exits with its own error (`GitCloneFailed`, `GoGetFailed`, `GoInstallFailed`, `FileExists` for the staging directory); the paths added are the workspace and, on success only, the staging directory; exit 0 if and only if all three exited 0 and the staging directory was new |
| `BuildUtilities.Host.RunPackage` | src/buildutilities/__main__.py:276-282 | the paths added are `<outputdir>` and, when fpm is found and `<outputdir>/packages` is not a file, that directory; nothing else; exit 0 if and only if fpm is found, `<outputdir>/packages` is not a file and both fpm runs exit 0; fpm for `deb` runs first and fpm for `tar` only if it succeeded; without fpm or with that path a file nothing runs |
| `BuildUtilities.Host.RunDeployDesc` | src/buildutilities/__main__.py:283-292 | an existing output path exits with `DescriptorExists` and changes nothing; otherwise the exit is 0 and exactly that path becomes a file holding the descriptor of the single target built with `--arch` and `--distrib` swapped; nothing is launched |
| `BuildUtilities.Host.RunMain` | src/buildutilities/__main__.py:258-295 | no subcommand exits 0 and leaves the state unchanged; `build`, `package` and `deploydesc` each give exactly the outcome stated for their branch above |

## Left out

- Argument parsing (`parse_arguments`, `__main__.py:40-103`) is CLI wrapping. `RunMain` takes the parsed options as an `Invocation` value. The language is kept as a free string. The program's argument parser accepts only `go` and `python` for it (`choices`, `__main__.py:56`), so the `Invalid language` raise (`:274`) cannot be reached in the program; the model reaches it only because it does not restrict the string.
- External processes (`git`, `go`, `python3 setup.py`, `fpm`) and GitPython's `Repo.clone_from` are foreign calls. Each is recorded as a `Launch`, and its exit code or success is an input. What they write to the filesystem is not modelled: the cloned sources, the installed files and the packages.
- The copy loops of `build_go` (`__main__.py:193-201`: `os.walk`, `shutil.copy2`, `shutil.copytree`) are filesystem I/O and are not modelled. The `print` at `__main__.py:161` is also left out.
- The site-packages directory name built from `python_version()` (`__main__.py:148`, `:151`) is an input string (`World.pythonTag`). The model does not compute it from a version number. The child's environment is modelled as the variables added to the parent's environment, not the whole environment.
- `uuid4()` randomness: the names are an input sequence. `Host.GenerateTmpDir`, `Host.BuildGo`, `Host.RunGoBuild`, and `Host.RunBuild` and `Host.RunMain` for `build --language go`, require it to hold at least five names, which is what five calls to `uuid4()` supply.
- `subprocess.Popen` raising instead of returning is not modelled. That happens when the executable or the working directory is missing (`FileNotFoundError`) for `fpm` (`__main__.py:126`), `python3` (`:149`), `git` (`:164`) or `go` (`:171`, `:181`). The model records every launch and lets only the exit code decide the outcome.
- `time.strftime("%Y-%m-%d")` is an input (`World.today`).
- `json.dump`'s text layout (indentation, `ensure_ascii=False`) is not modelled. The model stops at the structured value that is dumped.
- `sys.exit` is the `ExitStatus` result.
- `Results.Message`: the texts of GitPython's and the operating system's exceptions are not reproduced; only the texts the program raises itself are.
- `os.makedirs` adds only the leaf path. Intermediate directories are not added. The only failure modelled is the leaf existing when `exist_ok` is false, or the leaf existing as a file when it is true; a parent that is a regular file is not modelled. `open(output_path, 'w')` is assumed to succeed.
- `Paths.Under` compares path strings. It does not normalise `..`, repeated separators or symbolic links.
- `src/buildutilities/__init__.py` only checks the interpreter version and imports versioneer. It holds no logic to model.

=== FILE: build_utilities.dfy ===
/** The `BuildUtilities` static methods and `main`, acting on a host whose
    filesystem, launched processes and written JSON documents are the fields of
    `Host`. Everything the host's outside world decides (uuid4 values, today's
    date, whether fpm is on the PATH, the exit codes of external tools) arrives
    as a plain value. */
module BuildUtilities {
  import opened Results
  import opened Paths
  import opened Packaging
  import opened Descriptor
  import opened DescriptorJson

  /** `generate_tmp_dir` tries this many random names. */
  const TmpAttempts: nat := 5

  /** `os.path.join(os.path.abspath(os.sep), "tmp", uuid)`. */
  function TmpCandidate(uuid: string): (p: Path)
    ensures uuid != [] && uuid[0] != '/' ==> p == "/tmp/" + uuid
  {
    assert Join("/", "tmp") == "/tmp";
    assert JoinAll("/", ["tmp", uuid]) == JoinAll("/tmp", [uuid]) == Join("/tmp", uuid);
    JoinAll("/", ["tmp", uuid])
  }

  /** The outcome of the allocation loop from attempt `i` on: the first
      candidate that is not an existing path, or exhaustion. */
  function FirstFreeFrom(existing: set<Path>, uuids: seq<string>, i: nat): (r: Result<Path>)
    requires i <= TmpAttempts <= |uuids|
    decreases TmpAttempts - i
    ensures r.Ok? ==>
      exists k :: i <= k < TmpAttempts && r.value == TmpCandidate(uuids[k])
        && r.value !in existing
        && forall j :: i <= j < k ==> TmpCandidate(uuids[j]) in existing
    ensures r.Err? ==>
      r.error == TmpDirExhausted
        && forall j :: i <= j < TmpAttempts ==> TmpCandidate(uuids[j]) in existing
  {
    if i == TmpAttempts then Err(TmpDirExhausted)
    else if TmpCandidate(uuids[i]) !in existing then Ok(TmpCandidate(uuids[i]))
    else FirstFreeFrom(existing, uuids, i + 1)
  }

  /** What `generate_tmp_dir` returns when `uuid4()` yields `uuids` in turn. */
  function AllocateTmpDir(existing: set<Path>, uuids: seq<string>): Result<Path>
    requires TmpAttempts <= |uuids|
  {
    FirstFreeFrom(existing, uuids, 0)
  }

  /** Only the first five random names are ever looked at. */
  lemma {:induction false} AllocationUsesFirstFiveNames(existing: set<Path>, uuids: seq<string>, i: nat)
    requires i <= TmpAttempts <= |uuids|
    ensures FirstFreeFrom(existing, uuids, i) == FirstFreeFrom(existing, uuids[..TmpAttempts], i)
    decreases TmpAttempts - i
  {
    if i < TmpAttempts {
      assert uuids[..TmpAttempts][i] == uuids[i];
      AllocationUsesFirstFiveNames(existing, uuids, i + 1);
    }
  }

  /** An external process the program starts and waits for. `env` holds the
      variables added to the parent's environment; `cwd` is `None` when the
      child inherits the working directory. */
  datatype Launch =
    | Exec(argv: seq<string>, cwd: Option<Path>, env: map<string, string>)
    | RepoClone(url: string, dest: Path, branch: string)   // GitPython's Repo.clone_from

  datatype Language = Python | Go

  /** The language dispatch of `main`. */
  function ParseLanguage(language: string): (r: Result<Language>)
    ensures r == Ok(Python) <==> language == "python"
    ensures r == Ok(Go) <==> language == "go"
    ensures r.Err? <==> r == Err(InvalidLanguage(language))
  {
    if language == "python" then Ok(Python)
    else if language == "go" then Ok(Go)
    else Err(InvalidLanguage(language))
  }

  /** The subcommand and options `parse_arguments` produced. */
  datatype Invocation =
    | NoFunction
    | Build(project: string, arch: string, branch: string, binName: string,
            outputDir: Path, language: string)
    | Package(project: string, arch: string, branch: string, binName: string,
              outputDir: Path, inputDir: Path)
    | DeployDesc(project: string, branch: string, binName: string, user: string,
                 description: string, outputPath: Path, packagePath: Path,
                 distrib: string, arch: string,
                 licenses: seq<string>, labels: seq<string>)

  /** The single target `main` builds for `deploydesc`. The options are passed
      positionally to `TargetDesc(distrib, arch, package_path)` as
      `(arch, distrib, packagepath)`, so the two labels trade places. */
  function DeployTarget(inv: Invocation): (t: TargetDesc)
    requires inv.DeployDesc?
    ensures EntryFor(t).includePattern == inv.packagePath
    ensures EntryFor(t).matrixParams == MatrixParams(inv.arch, "main", inv.distrib)
  {
    TargetDesc(inv.arch, inv.distrib, inv.packagePath)
  }

  /** The `deploydesc` descriptor routes the package under the `--arch` value
      as its distribution, and labels it with the `--distrib` value as its
      architecture. */
  lemma DeployDescRoutesArchAsDistribution(inv: Invocation, released: string, isFiles: set<Path>)
    requires inv.DeployDesc?
    ensures var d := BintrayDescriptor(inv.project, inv.binName, inv.user, inv.description,
                                       inv.branch, released, [DeployTarget(inv)],
                                       inv.licenses, inv.labels, isFiles);
      d.files == if inv.packagePath in isFiles
                 then [FileEntry(inv.packagePath, Join(inv.arch, "$1"),
                                 MatrixParams(inv.arch, "main", inv.distrib))]
                 else []
  {
  }

  /** What the outside world answers during one run. */
  datatype World = World(
    uuids: seq<string>,       // successive uuid4() values
    today: string,            // time.strftime("%Y-%m-%d")
    pythonTag: string,        // "python", character 0 of python_version(), ".", character 2
    fpmFound: bool,           // shutil.which("fpm") is not None
    debExit: int, tarExit: int,
    repoCloneOk: bool, setupExit: int,
    gitCloneExit: int, goGetExit: int, goInstallExit: int)

  /** How `main` leaves: `sys.exit(0)` or `sys.exit(str(e))`. */
  datatype ExitStatus = ExitSuccess | ExitFailure(error: Error)

  function PackagesDir(outputDir: Path): Path
  {
    Join(outputDir, "packages")
  }

  function FpmLaunch(outputDir: Path, packageType: string, packageName: string, version: string,
                     arch: string, project: string, pathToPackage: Path): Launch
  {
    Exec(FpmArgv(packageType, packageName, outputDir, arch, project, version),
         Some(pathToPackage), map[])
  }

  function GoBinDir(outputDir: Path): Path
  {
    JoinAll(outputDir, ["packaging", "usr", "local", "bin"])
  }

  /** The three processes `build_go` runs, in order, for workspace `tmp`. */
  function GoLaunches(tmp: Path, project: string, branch: string, arch: string): (steps: seq<Launch>)
    ensures |steps| == 3 && steps[0].Exec? && steps[1].Exec? && steps[2].Exec?
    ensures |steps[0].argv| == 6 && steps[0].argv[..3] == ["git", "clone", "-b"]
    ensures steps[0].argv[3] == branch && steps[0].argv[4] == GithubUrl(project)
    ensures steps[0].argv[5] == JoinAll(Join(tmp, "go"), ["src", "github.com", project])
    ensures steps[0].cwd.None?
    ensures steps[1].argv == ["go", "get", "-d", "./..."] && steps[2].argv == ["go", "install", "./..."]
    ensures steps[1].cwd == steps[2].cwd == Some(steps[0].argv[5])
    ensures steps[1].env == steps[2].env
              == map["GOARCH" := arch, "GOPATH" := Join(tmp, "go"), "CGO_ENABLED" := "0"]
  {
    var goDir := Join(tmp, "go");
    var srcDir := JoinAll(goDir, ["src", "github.com", project]);
    var env := map["GOARCH" := arch, "GOPATH" := goDir, "CGO_ENABLED" := "0"];
    [Exec(["git", "clone", "-b", branch, GithubUrl(project), srcDir], None, map[]),
     Exec(["go", "get", "-d", "./..."], Some(srcDir), env),
     Exec(["go", "install", "./..."], Some(srcDir), env)]
  }

  /** How many of the Go steps start: each runs only if the one before exited 0. */
  function GoStepsStarted(cloneExit: int, getExit: int): nat
  {
    if cloneExit != 0 then 1 else if getExit != 0 then 2 else 3
  }

  /** The prologue of `build_python` and `build_go`,
      `if len(os.listdir(dir)) != 0: raise`, on a filesystem whose paths are
      `existing` and whose regular files are `regular`. */
  function OutputDirGuard(existing: set<Path>, regular: set<Path>, dir: Path): (r: Result<()>)
    ensures r.Ok? <==>
      dir in existing && dir !in regular && forall p :: p in existing ==> !Under(p, dir)
    ensures r == Err(OutputDirNotEmpty(dir)) <==>
      dir in existing && dir !in regular && exists p :: p in existing && Under(p, dir)
  {
    if dir !in existing then Err(OsError(NoSuchFile, dir))
    else if dir in regular then Err(OsError(NotADirectory, dir))
    else if exists p :: p in existing && Under(p, dir) then Err(OutputDirNotEmpty(dir))
    else Ok(())
  }

  function PythonSitePackages(outputDir: Path, pythonTag: string): Path
  {
    JoinAll(Join(outputDir, "install"), ["lib", pythonTag, "site-packages"])
  }

  /** The two processes `build_python` runs, in order: the GitPython clone into
      `<dir>/src`, then `setup.py install` with its prefix `<dir>/install` and
      `PYTHONPATH` set to the site-packages directory under it. */
  function PythonLaunches(outputDir: Path, project: string, branch: string,
                          pythonTag: string): (steps: seq<Launch>)
    ensures |steps| == 2 && steps[0].RepoClone? && steps[1].Exec?
    ensures steps[0].url == GithubUrl(project) && steps[0].branch == branch
    ensures steps[0].dest == Join(outputDir, "src") && steps[1].cwd == Some(steps[0].dest)
    ensures |steps[1].argv| == 4 && steps[1].argv[..3] == ["python3", "./setup.py", "install"]
    ensures steps[1].argv[3] == "--prefix=" + Join(outputDir, "install")
    ensures steps[1].env == map["PYTHONPATH" := PythonSitePackages(outputDir, pythonTag)]
  {
    var srcDir := Join(outputDir, "src");
    var installDir := Join(outputDir, "install");
    [RepoClone(GithubUrl(project), srcDir, branch),
     Exec(["python3", "./setup.py", "install", "--prefix=" + installDir],
          Some(srcDir), map["PYTHONPATH" := PythonSitePackages(outputDir, pythonTag)])]
  }

  /** How many of the Python steps start: the install runs only after a
      successful clone and site-packages creation. */
  function PythonStepsStarted(cloneOk: bool, sitePackagesIsFile: bool): nat
  {
    if cloneOk && !sitePackagesIsFile then 2 else 1
  }

  /** A snapshot of the host's fields. */
  datatype HostState = HostState(paths: set<Path>, files: set<Path>,
                                 documents: map<Path, Json>, launched: seq<Launch>)

  /** What `main` does for `build`, from state `s` to state `t`: the output
      directory is made when missing, then the language selects the builder. */
  predicate BuildOutcome(inv: Invocation, w: World, s: HostState, t: HostState, status: ExitStatus)
    requires inv.Build? && (inv.language == "go" ==> TmpAttempts <= |w.uuids|)
  {
    var made := HostState(s.paths + {inv.outputDir}, s.files, s.documents, s.launched);
    && (ParseLanguage(inv.language).Err? ==>
          status == ExitFailure(InvalidLanguage(inv.language)) && t == made)
    && (inv.language == "python" ==> PythonBuildOutcome(inv, w, made, t, status))
    && (inv.language == "go" ==> GoBuildOutcome(inv, w, made, t, status))
  }

  /** `build_python` run from `s`: it refuses a non-empty output directory
      before running anything, then clones and runs `setup.py install`. */
  predicate PythonBuildOutcome(inv: Invocation, w: World, s: HostState, t: HostState,
                               status: ExitStatus)
    requires inv.Build?
  {
    var guard := OutputDirGuard(s.paths, s.files, inv.outputDir);
    var sitePackages := PythonSitePackages(inv.outputDir, w.pythonTag);
    var sitePackagesIsFile := sitePackages in s.files;
    && s.paths <= t.paths && t.files == s.files && t.documents == s.documents
    && (guard.Err? ==> status == ExitFailure(guard.error) && t == s)
    && (guard.Ok? ==>
          && t.launched == s.launched
             + PythonLaunches(inv.outputDir, inv.project, inv.branch, w.pythonTag)
               [..PythonStepsStarted(w.repoCloneOk, sitePackagesIsFile)]
          && t.paths == s.paths + (if w.repoCloneOk && !sitePackagesIsFile then {sitePackages} else {})
          && (!w.repoCloneOk ==> status == ExitFailure(RepoCloneFailed(GithubUrl(inv.project))))
          && (w.repoCloneOk && sitePackagesIsFile ==>
                status == ExitFailure(OsError(FileExists, sitePackages)))
          && (w.repoCloneOk && !sitePackagesIsFile && w.setupExit != 0 ==>
                status == ExitFailure(SetupFailed))
          && (status == ExitSuccess <==> w.repoCloneOk && !sitePackagesIsFile && w.setupExit == 0))
  }

  /** `build_go` run from `s`: it refuses a non-empty output directory before
      running anything, then allocates a GOPATH and runs git and go in turn. */
  predicate GoBuildOutcome(inv: Invocation, w: World, s: HostState, t: HostState,
                           status: ExitStatus)
    requires inv.Build? && TmpAttempts <= |w.uuids|
  {
    var guard := OutputDirGuard(s.paths, s.files, inv.outputDir);
    var allocation := AllocateTmpDir(s.paths, w.uuids);
    && s.paths <= t.paths && t.files == s.files && t.documents == s.documents
    && (guard.Err? ==> status == ExitFailure(guard.error) && t == s)
    && (guard.Ok? && allocation.Err? ==>
          status == ExitFailure(TmpDirExhausted) && t.launched == s.launched && t.paths == s.paths)
    && (guard.Ok? && allocation.Ok? ==>
          var binDir := GoBinDir(inv.outputDir);
          && t.launched == s.launched
             + GoLaunches(allocation.value, inv.project, inv.branch, inv.arch)
               [..GoStepsStarted(w.gitCloneExit, w.goGetExit)]
          && (w.gitCloneExit != 0 ==> status == ExitFailure(GitCloneFailed))
          && (w.gitCloneExit == 0 && w.goGetExit != 0 ==> status == ExitFailure(GoGetFailed))
          && (w.gitCloneExit == 0 && w.goGetExit == 0 && w.goInstallExit != 0 ==>
                status == ExitFailure(GoInstallFailed))
          && (w.gitCloneExit == 0 && w.goGetExit == 0 && w.goInstallExit == 0
              && binDir in s.paths + {allocation.value} ==>
                status == ExitFailure(OsError(FileExists, binDir)))
          && (status == ExitSuccess <==>
                w.gitCloneExit == 0 && w.goGetExit == 0 && w.goInstallExit == 0
                && binDir !in s.paths + {allocation.value})
          && t.paths == s.paths + {allocation.value}
                        + (if status == ExitSuccess then {binDir} else {}))
  }

  /** What `main` does for `package`: fpm for `deb`, then for `tar`, stopping
      at the first failure. */
  predicate PackageOutcome(inv: Invocation, w: World, s: HostState, t: HostState, status: ExitStatus)
    requires inv.Package?
  {
    var deb := FpmLaunch(inv.outputDir, "deb", inv.binName, inv.branch, inv.arch,
                         inv.project, inv.inputDir);
    var tar := FpmLaunch(inv.outputDir, "tar", inv.binName, inv.branch, inv.arch,
                         inv.project, inv.inputDir);
    var packagesDir := PackagesDir(inv.outputDir);
    && t.files == s.files && t.documents == s.documents
    && t.paths == s.paths + {inv.outputDir}
                  + (if w.fpmFound && packagesDir !in s.files then {packagesDir} else {})
    && (status == ExitSuccess <==>
          w.fpmFound && packagesDir !in s.files && w.debExit == 0 && w.tarExit == 0)
    && (!w.fpmFound ==> status == ExitFailure(FpmNotFound) && t.launched == s.launched)
    && (w.fpmFound && packagesDir in s.files ==>
          status == ExitFailure(OsError(FileExists, packagesDir)) && t.launched == s.launched)
    && (w.fpmFound && packagesDir !in s.files ==>
          && t.launched == s.launched + (if w.debExit == 0 then [deb, tar] else [deb])
          && (w.debExit != 0 || w.tarExit != 0 ==> status == ExitFailure(FpmFailed)))
  }

  /** What `main` does for `deploydesc`: write the descriptor of the one
      (swapped) target, never overwriting an existing path. */
  predicate DeployDescOutcome(inv: Invocation, w: World, s: HostState, t: HostState, status: ExitStatus)
    requires inv.DeployDesc?
  {
    && t.launched == s.launched
    && (inv.outputPath in s.paths ==>
          status == ExitFailure(DescriptorExists(inv.outputPath))
          && t.paths == s.paths && t.files == s.files && t.documents == s.documents)
    && (inv.outputPath !in s.paths ==>
          status == ExitSuccess
          && t.paths == s.paths + {inv.outputPath} && t.files == s.files + {inv.outputPath}
          && t.documents == s.documents[inv.outputPath := ToJson(BintrayDescriptor(
               inv.project, inv.binName, inv.user, inv.description, inv.branch, w.today,
               [DeployTarget(inv)], inv.licenses, inv.labels, s.files))])
  }

  class Host {
    var paths: set<Path>               // every existing path
    var files: set<Path>               // the existing paths that are regular files
    var documents: map<Path, Json>     // JSON documents this program has written
    var launched: seq<Launch>          // external processes started, oldest first

    ghost predicate Valid()
      reads this
    {
      files <= paths && documents.Keys <= files
    }

    function State(): HostState
      reads this
    {
      HostState(paths, files, documents, launched)
    }

    constructor (existing: set<Path>, regular: set<Path>)
      requires regular <= existing
      ensures Valid()
      ensures paths == existing && files == regular && documents == map[] && launched == []
    {
      paths, files, documents, launched := existing, regular, map[], [];
    }

    /** `generate_tmp_dir`: at most five attempts; the first free name is
        created and returned. */
    method GenerateTmpDir(uuids: seq<string>) returns (r: Result<Path>)
      requires Valid() && TmpAttempts <= |uuids|
      modifies this`paths
      ensures Valid()
      ensures r == AllocateTmpDir(old(paths), uuids)
      ensures r.Ok? ==> r.value !in old(paths) && paths == old(paths) + {r.value}
      ensures r.Err? ==> paths == old(paths)
    {
      var tmpDirPath: Option<Path> := None;
      for i := 0 to TmpAttempts
        invariant paths == old(paths) && tmpDirPath == None
        invariant AllocateTmpDir(paths, uuids) == FirstFreeFrom(paths, uuids, i)
      {
        var candidate := TmpCandidate(uuids[i]);
        if candidate !in paths {
          paths := paths + {candidate};
          tmpDirPath := Some(candidate);
          break;
        } else {
          tmpDirPath := None;
        }
      }
      if tmpDirPath == None {
        return Err(TmpDirExhausted);
      }
      return Ok(tmpDirPath.value);
    }

    /** `generate_package`: needs fpm on the PATH, makes `<outputdir>/packages`
        and runs fpm once from the staged tree. */
    method GeneratePackage(outputDir: Path, packageType: string, packageName: string,
                           version: string, arch: string, project: string,
                           pathToPackage: Path, fpmFound: bool, exitCode: int)
      returns (r: Result<()>)
      requires Valid()
      modifies this`paths, this`launched
      ensures Valid() && files == old(files)
      ensures !fpmFound ==> r == Err(FpmNotFound) && paths == old(paths) && launched == old(launched)
      ensures fpmFound && PackagesDir(outputDir) in old(files) ==>
        r == Err(OsError(FileExists, PackagesDir(outputDir)))
        && paths == old(paths) && launched == old(launched)
      ensures fpmFound && PackagesDir(outputDir) !in old(files) ==>
        && paths == old(paths) + {PackagesDir(outputDir)}
        && launched == old(launched) + [FpmLaunch(outputDir, packageType, packageName, version,
                                                  arch, project, pathToPackage)]
        && r == if exitCode == 0 then Ok(()) else Err(FpmFailed)
    {
      if !fpmFound {
        return Err(FpmNotFound);
      }
      var packagesDir := PackagesDir(outputDir);
      if packagesDir in files {
        return Err(OsError(FileExists, packagesDir));
      }
      paths := paths + {packagesDir};
      launched := launched + [FpmLaunch(outputDir, packageType, packageName, version,
                                        arch, project, pathToPackage)];
      if exitCode != 0 {
        return Err(FpmFailed);
      }
      return Ok(());
    }

    /** `build_python`: refuse a non-empty output directory, clone into
        `<dir>/src`, then `setup.py install` under `<dir>/install`. */
    method BuildPython(outputDir: Path, project: string, branch: string, arch: string,
                       binName: string, pythonTag: string, cloneOk: bool, setupExit: int)
      returns (r: Result<()>)
      requires Valid()
      modifies this`paths, this`launched
      ensures Valid() && files == old(files) && old(paths) <= paths
      ensures OutputDirGuard(old(paths), old(files), outputDir).Err? ==>
        r == OutputDirGuard(old(paths), old(files), outputDir)
        && paths == old(paths) && launched == old(launched)
      ensures OutputDirGuard(old(paths), old(files), outputDir).Ok? ==>
        var sitePackages := PythonSitePackages(outputDir, pythonTag);
        && launched == old(launched) + PythonLaunches(outputDir, project, branch, pythonTag)
                                       [..PythonStepsStarted(cloneOk, sitePackages in files)]
        && (!cloneOk ==> r == Err(RepoCloneFailed(GithubUrl(project))) && paths == old(paths))
        && (cloneOk && sitePackages in files ==>
              r == Err(OsError(FileExists, sitePackages)) && paths == old(paths))
        && (cloneOk && sitePackages !in files ==>
              paths == old(paths) + {sitePackages}
              && r == if setupExit == 0 then Ok(()) else Err(SetupFailed))
    {
      r := OutputDirGuard(paths, files, outputDir);
      if r.Err? {
        return;
      }
      var steps := PythonLaunches(outputDir, project, branch, pythonTag);
      r := RunPythonSteps(steps, PythonSitePackages(outputDir, pythonTag), cloneOk, setupExit);
    }

    /** The part of `build_python` after the output directory is checked:
        the clone and install launches in `steps`, with the site-packages
        directory `sitePackages` created between them. */
    method RunPythonSteps(steps: seq<Launch>, sitePackages: Path, cloneOk: bool, setupExit: int)
      returns (r: Result<()>)
      requires Valid() && |steps| == 2 && steps[0].RepoClone?
      modifies this`paths, this`launched
      ensures Valid()
      ensures launched == old(launched)
                          + steps[..PythonStepsStarted(cloneOk, sitePackages in old(files))]
      ensures !cloneOk ==> r == Err(RepoCloneFailed(steps[0].url)) && paths == old(paths)
      ensures cloneOk && sitePackages in old(files) ==>
                r == Err(OsError(FileExists, sitePackages)) && paths == old(paths)
      ensures cloneOk && sitePackages !in old(files) ==>
                paths == old(paths) + {sitePackages}
                && r == if setupExit == 0 then Ok(()) else Err(SetupFailed)
    {
      launched := launched + [steps[0]];
      assert launched == old(launched) + steps[..1];
      if !cloneOk {
        return Err(RepoCloneFailed(steps[0].url));
      }
      if sitePackages in files {
        return Err(OsError(FileExists, sitePackages));
      }
      paths := paths + {sitePackages};
      launched := launched + [steps[1]];
      assert launched == old(launched) + steps[..2];
      if setupExit != 0 {
        return Err(SetupFailed);
      }
      return Ok(());
    }

    /** `build_go`: refuse a non-empty output directory, allocate a GOPATH
        workspace, clone, `go get`, `go install`, then create the binary
        staging directory `<dir>/packaging/usr/local/bin`. */
    method BuildGo(outputDir: Path, project: string, branch: string, arch: string,
                   binName: string, uuids: seq<string>,
                   cloneExit: int, getExit: int, installExit: int)
      returns (r: Result<()>)
      requires Valid() && TmpAttempts <= |uuids|
      modifies this`paths, this`launched
      ensures Valid() && files == old(files) && old(paths) <= paths
      ensures OutputDirGuard(old(paths), old(files), outputDir).Err? ==>
        r == OutputDirGuard(old(paths), old(files), outputDir) && paths == old(paths) && launched == old(launched)
      ensures OutputDirGuard(old(paths), old(files), outputDir).Ok? && AllocateTmpDir(old(paths), uuids).Err? ==>
        r == Err(TmpDirExhausted) && paths == old(paths) && launched == old(launched)
      ensures OutputDirGuard(old(paths), old(files), outputDir).Ok? && AllocateTmpDir(old(paths), uuids).Ok? ==>
        var tmp := AllocateTmpDir(old(paths), uuids).value;
        && launched == old(launched)
           + GoLaunches(tmp, project, branch, arch)[..GoStepsStarted(cloneExit, getExit)]
        && (cloneExit != 0 ==> r == Err(GitCloneFailed))
        && (cloneExit == 0 && getExit != 0 ==> r == Err(GoGetFailed))
        && (cloneExit == 0 && getExit == 0 && installExit != 0 ==> r == Err(GoInstallFailed))
        && (cloneExit == 0 && getExit == 0 && installExit == 0
            && GoBinDir(outputDir) in old(paths) + {tmp} ==>
              r == Err(OsError(FileExists, GoBinDir(outputDir))))
        && (r.Ok? <==> cloneExit == 0 && getExit == 0 && installExit == 0
                       && GoBinDir(outputDir) !in old(paths) + {tmp})
        && paths == old(paths) + {tmp} + (if r.Ok? then {GoBinDir(outputDir)} else {})
    {
      r := OutputDirGuard(paths, files, outputDir);
      if r.Err? {
        return;
      }
      var tmp := GenerateTmpDir(uuids);
      if tmp.Err? {
        return Err(tmp.error);
      }
      var steps := GoLaunches(tmp.value, project, branch, arch);
      r := RunGoSteps(steps, GoBinDir(outputDir), cloneExit, getExit, installExit);
    }

    /** The part of `build_go` after the workspace exists: the clone, `go get`
        and `go install` launches in `steps`, each run only when the one before
        it exited with 0, then the binary staging directory `binDir`. */
    method RunGoSteps(steps: seq<Launch>, binDir: Path,
                      cloneExit: int, getExit: int, installExit: int)
      returns (r: Result<()>)
      requires Valid() && |steps| == 3
      modifies this`paths, this`launched
      ensures Valid()
      ensures launched == old(launched) + steps[..GoStepsStarted(cloneExit, getExit)]
      ensures cloneExit != 0 ==> r == Err(GitCloneFailed)
      ensures cloneExit == 0 && getExit != 0 ==> r == Err(GoGetFailed)
      ensures cloneExit == 0 && getExit == 0 && installExit != 0 ==> r == Err(GoInstallFailed)
      ensures cloneExit == 0 && getExit == 0 && installExit == 0 && binDir in old(paths) ==>
                r == Err(OsError(FileExists, binDir))
      ensures r.Ok? <==> cloneExit == 0 && getExit == 0 && installExit == 0 && binDir !in old(paths)
      ensures paths == old(paths) + (if r.Ok? then {binDir} else {})
    {
      launched := launched + [steps[0]];
      assert launched == old(launched) + steps[..1];
      if cloneExit != 0 {
        return Err(GitCloneFailed);
      }
      launched := launched + [steps[1]];
      assert launched == old(launched) + steps[..2];
      if getExit != 0 {
        return Err(GoGetFailed);
      }
      launched := launched + [steps[2]];
      assert launched == old(launched) + steps[..3];
      if installExit != 0 {
        return Err(GoInstallFailed);
      }
      if binDir in paths {
        return Err(OsError(FileExists, binDir));
      }
      paths := paths + {binDir};
      return Ok(());
    }

    /** The dictionary `generate_bintray_descriptor` builds: the fixed blocks,
        then one routing entry appended per target whose package file exists. */
    method AssembleDescriptor(project: string, binName: string, user: string, desc: string,
                              version: string, released: string, targets: seq<TargetDesc>,
                              licenses: seq<string>, labels: seq<string>)
      returns (d: Descriptor)
      ensures d == BintrayDescriptor(project, binName, user, desc, version, released,
                                     targets, licenses, labels, files)
    {
      var githubAddr := GithubUrl(project);
      d := Descriptor(
        PackageBlock(binName, binName, user, desc, githubAddr, githubAddr, githubAddr,
                     true, licenses, labels, false, false),
        VersionBlock(version, desc, released, version, false),
        [],
        true);
      for i := 0 to |targets|
        invariant d == BintrayDescriptor(project, binName, user, desc, version, released,
                                         targets[..i], licenses, labels, files)
      {
        var t := targets[i];
        if t.packagePath in files {
          d := d.(files := d.files + [EntryFor(t)]);
        }
        assert targets[..i + 1] == targets[..i] + [t];
        FileEntriesAppend(targets[..i], [t], files);
      }
      assert targets[..|targets|] == targets;
    }

    /** `generate_bintray_descriptor`: refuse an existing output path,
        otherwise write the descriptor there as a new regular file. */
    method GenerateBintrayDescriptor(outputPath: Path, project: string, binName: string,
                                     user: string, desc: string, version: string,
                                     targets: seq<TargetDesc>, licenses: seq<string>,
                                     labels: seq<string>, released: string)
      returns (r: Result<()>)
      requires Valid()
      modifies this`paths, this`files, this`documents
      ensures Valid()
      ensures outputPath in old(paths) ==>
        r == Err(DescriptorExists(outputPath))
        && paths == old(paths) && files == old(files) && documents == old(documents)
      ensures outputPath !in old(paths) ==>
        && r == Ok(())
        && outputPath !in old(files) && outputPath !in old(documents)
        && paths == old(paths) + {outputPath} && files == old(files) + {outputPath}
        && documents == old(documents)[outputPath := ToJson(BintrayDescriptor(
             project, binName, user, desc, version, released, targets, licenses, labels,
             old(files)))]
    {
      if outputPath in paths {
        return Err(DescriptorExists(outputPath));
      }
      var d := AssembleDescriptor(project, binName, user, desc, version, released,
                                  targets, licenses, labels);
      paths := paths + {outputPath};
      files := files + {outputPath};
      documents := documents[outputPath := ToJson(d)];
      return Ok(());
    }

    /** The `build` branch of `main`. */
    method RunBuild(inv: Invocation, w: World) returns (status: ExitStatus)
      requires Valid() && inv.Build? && (inv.language == "go" ==> TmpAttempts <= |w.uuids|)
      modifies this`paths, this`launched
      ensures Valid()
      ensures BuildOutcome(inv, w, old(State()), State(), status)
    {
      if inv.outputDir !in paths {
        paths := paths + {inv.outputDir};
      }
      ghost var made := State();
      assert made == HostState(old(paths) + {inv.outputDir}, old(files), old(documents), old(launched));
      var lang := ParseLanguage(inv.language);
      if lang.Err? {
        return ExitFailure(lang.error);
      }
      if lang.value == Python {
        status := RunPythonBuild(inv, w);
        assert PythonBuildOutcome(inv, w, made, State(), status);
      } else {
        status := RunGoBuild(inv, w);
        assert GoBuildOutcome(inv, w, made, State(), status);
      }
    }

    /** `build_python` as `main` calls it, its exception turned into a status. */
    method RunPythonBuild(inv: Invocation, w: World) returns (status: ExitStatus)
      requires Valid() && inv.Build?
      modifies this`paths, this`launched
      ensures Valid()
      ensures PythonBuildOutcome(inv, w, old(State()), State(), status)
    {
      var r := BuildPython(inv.outputDir, inv.project, inv.branch, inv.arch, inv.binName,
                           w.pythonTag, w.repoCloneOk, w.setupExit);
      status := if r.Err? then ExitFailure(r.error) else ExitSuccess;
    }

    /** `build_go` as `main` calls it, its exception turned into a status. */
    method RunGoBuild(inv: Invocation, w: World) returns (status: ExitStatus)
      requires Valid() && inv.Build? && TmpAttempts <= |w.uuids|
      modifies this`paths, this`launched
      ensures Valid()
      ensures GoBuildOutcome(inv, w, old(State()), State(), status)
    {
      var r := BuildGo(inv.outputDir, inv.project, inv.branch, inv.arch, inv.binName, w.uuids,
                       w.gitCloneExit, w.goGetExit, w.goInstallExit);
      status := if r.Err? then ExitFailure(r.error) else ExitSuccess;
    }

    /** The `package` branch of `main`. */
    method RunPackage(inv: Invocation, w: World) returns (status: ExitStatus)
      requires Valid() && inv.Package?
      modifies this`paths, this`launched
      ensures Valid()
      ensures PackageOutcome(inv, w, old(State()), State(), status)
    {
      if inv.outputDir !in paths {
        paths := paths + {inv.outputDir};
      }
      var r := GeneratePackage(inv.outputDir, "deb", inv.binName, inv.branch, inv.arch,
                               inv.project, inv.inputDir, w.fpmFound, w.debExit);
      if r.Err? {
        return ExitFailure(r.error);
      }
      r := GeneratePackage(inv.outputDir, "tar", inv.binName, inv.branch, inv.arch,
                           inv.project, inv.inputDir, w.fpmFound, w.tarExit);
      if r.Err? {
        return ExitFailure(r.error);
      }
      return ExitSuccess;
    }

    /** The `deploydesc` branch of `main`. */
    method RunDeployDesc(inv: Invocation, w: World) returns (status: ExitStatus)
      requires Valid() && inv.DeployDesc?
      modifies this`paths, this`files, this`documents
      ensures Valid()
      ensures DeployDescOutcome(inv, w, old(State()), State(), status)
    {
      var t := DeployTarget(inv);
      var r := GenerateBintrayDescriptor(inv.outputPath, inv.project, inv.binName, inv.user,
                                         inv.description, inv.branch, [t], inv.licenses,
                                         inv.labels, w.today);
      if r.Err? {
        return ExitFailure(r.error);
      }
      return ExitSuccess;
    }

    /** `main` after argument parsing: run the one selected function and turn
        the first exception into the exit status. */
    method RunMain(inv: Invocation, w: World) returns (status: ExitStatus)
      requires Valid() && (inv.Build? && inv.language == "go" ==> TmpAttempts <= |w.uuids|)
      modifies this
      ensures Valid()
      ensures inv.NoFunction? ==> status == ExitSuccess && State() == old(State())
      ensures inv.Build? ==> BuildOutcome(inv, w, old(State()), State(), status)
      ensures inv.Package? ==> PackageOutcome(inv, w, old(State()), State(), status)
      ensures inv.DeployDesc? ==> DeployDescOutcome(inv, w, old(State()), State(), status)
    {
      match inv
      case NoFunction =>
        return ExitSuccess;
      case Build(_, _, _, _, _, _) =>
        status := RunBuild(inv, w);
      case Package(_, _, _, _, _, _) =>
        status := RunPackage(inv, w);
      case DeployDesc(_, _, _, _, _, _, _, _, _, _, _) =>
        status := RunDeployDesc(inv, w);
    }
  }
}

=== FILE: descriptor.dfy ===
/** The Bintray deployment descriptor that `generate_bintray_descriptor`
    assembles: package identity, a version block and one upload-routing
    entry per target whose package file exists. */
module Descriptor {
  import opened Paths

  /** `TargetDesc(distrib, arch, package_path)`: one produced package file. */
  datatype TargetDesc = TargetDesc(distrib: string, arch: string, packagePath: Path)

  datatype MatrixParams = MatrixParams(debDistribution: string, debComponent: string,
                                       debArchitecture: string)

  /** One entry of the descriptor's `files` list. */
  datatype FileEntry = FileEntry(includePattern: string, uploadPattern: string,
                                 matrixParams: MatrixParams)

  /** The `package` block. `publicDownloadNumbers` is written under the key
      `public_download_numebrs`, spelled so by the program. */
  datatype PackageBlock = PackageBlock(
    name: string, repo: string, subject: string, desc: string,
    websiteUrl: string, issueTrackerUrl: string, vcsUrl: string,
    githubUseTagReleaseNotes: bool,
    licenses: seq<string>, labels: seq<string>,
    publicDownloadNumbers: bool, publicStats: bool)

  /** The `version` block; `released` is the run's date as `%Y-%m-%d`. */
  datatype VersionBlock = VersionBlock(name: string, desc: string, released: string,
                                       vcsTag: string, gpgSign: bool)

  datatype Descriptor = Descriptor(package: PackageBlock, version: VersionBlock,
                                   files: seq<FileEntry>, publish: bool)

  function GithubUrl(project: string): string
  {
    "https://github.com/" + project
  }

  /** The routing entry for a target: files matching its path go to
      `<distrib>/$1`, in component `main` of its distribution and architecture. */
  function EntryFor(t: TargetDesc): (e: FileEntry)
    ensures e.includePattern == t.packagePath
    ensures e.uploadPattern == t.distrib + "$1" || e.uploadPattern == t.distrib + "/$1"
    ensures e.matrixParams.debDistribution == t.distrib && e.matrixParams.debComponent == "main"
    ensures e.matrixParams.debArchitecture == t.arch
  {
    FileEntry(t.packagePath, Join(t.distrib, "$1"), MatrixParams(t.distrib, "main", t.arch))
  }

  /** The `files` list: the entries of the targets whose path is a regular file
      (`isFiles`), in target order. */
  function FileEntries(targets: seq<TargetDesc>, isFiles: set<Path>): (entries: seq<FileEntry>)
    ensures |entries| <= |targets|
  {
    if targets == [] then []
    else (if targets[0].packagePath in isFiles then [EntryFor(targets[0])] else [])
         + FileEntries(targets[1..], isFiles)
  }

  /** The descriptor `generate_bintray_descriptor` dumps, for the filesystem
      whose regular files are `isFiles`. */
  function BintrayDescriptor(project: string, binName: string, user: string, desc: string,
                             version: string, released: string, targets: seq<TargetDesc>,
                             licenses: seq<string>, labels: seq<string>,
                             isFiles: set<Path>): (d: Descriptor)
    ensures d.package.name == d.package.repo == binName && d.package.subject == user
    ensures d.package.websiteUrl == d.package.issueTrackerUrl == d.package.vcsUrl
            == GithubUrl(project)
    ensures d.version.name == d.version.vcsTag == version && d.version.released == released
    ensures d.package.licenses == licenses && d.package.labels == labels
    ensures d.package.desc == d.version.desc == desc
    ensures d.package.githubUseTagReleaseNotes && !d.package.publicDownloadNumbers
            && !d.package.publicStats && !d.version.gpgSign
    ensures d.publish && |d.files| <= |targets|
  {
    var githubAddr := GithubUrl(project);
    Descriptor(
      PackageBlock(binName, binName, user, desc, githubAddr, githubAddr, githubAddr,
                   true, licenses, labels, false, false),
      VersionBlock(version, desc, released, version, false),
      FileEntries(targets, isFiles),
      true)
  }

  /** The `files` list distributes over concatenation of the target list; with
      the one-target case this says each target contributes its own entry, or
      none, at its own place in the order. */
  lemma {:induction false} FileEntriesAppend(a: seq<TargetDesc>, b: seq<TargetDesc>, isFiles: set<Path>)
    ensures FileEntries(a + b, isFiles) == FileEntries(a, isFiles) + FileEntries(b, isFiles)
  {
    if a == [] {
      assert a + b == b;
    } else {
      var head := if a[0].packagePath in isFiles then [EntryFor(a[0])] else [];
      assert (a + b)[0] == a[0] && (a + b)[1..] == a[1..] + b;
      assert FileEntries(a + b, isFiles) == head + FileEntries(a[1..] + b, isFiles);
      FileEntriesAppend(a[1..], b, isFiles);
      assert FileEntries(a, isFiles) == head + FileEntries(a[1..], isFiles);
    }
  }

  /** An entry is listed exactly when it routes a target whose package file exists. */
  lemma {:induction false} FileEntriesExactlyFileTargets(targets: seq<TargetDesc>, isFiles: set<Path>, e: FileEntry)
    ensures e in FileEntries(targets, isFiles)
            <==> exists t :: t in targets && t.packagePath in isFiles && e == EntryFor(t)
  {
    if targets != [] {
      FileEntriesExactlyFileTargets(targets[1..], isFiles, e);
      if e in FileEntries(targets[1..], isFiles) {
        var t :| t in targets[1..] && t.packagePath in isFiles && e == EntryFor(t);
        assert t in targets;
      }
      forall t | t in targets && t.packagePath in isFiles && e == EntryFor(t)
        ensures e in FileEntries(targets, isFiles)
      {
        if t != targets[0] {
          assert t in targets[1..];
        }
      }
    }
  }

  /** Every listed entry carries the fixed component `main`, includes a path that
      is a regular file, and uploads under its own distribution directory. */
  lemma EntriesAreRoutingRules(targets: seq<TargetDesc>, isFiles: set<Path>)
    ensures forall e :: e in FileEntries(targets, isFiles) ==>
      && e.includePattern in isFiles
      && e.matrixParams.debComponent == "main"
      && e.uploadPattern == Join(e.matrixParams.debDistribution, "$1")
  {
  }
}

=== FILE: descriptor_json.dfy ===
/** The structured value `json.dump` serialises for a descriptor: objects keep
    their keys in insertion order, with exactly the key names the program uses.
    `FromJson` reads that layout back, so no field of the descriptor is lost. */
module DescriptorJson {
  import opened Results
  import opened Descriptor

  datatype Json =
    | JBool(b: bool)
    | JString(s: string)
    | JArray(items: seq<Json>)
    | JObject(members: seq<(string, Json)>)

  function StringsToJson(ss: seq<string>): Json
  {
    JArray(seq(|ss|, i requires 0 <= i < |ss| => JString(ss[i])))
  }

  function EntryToJson(e: FileEntry): Json
  {
    JObject([
      ("includePattern", JString(e.includePattern)),
      ("uploadPattern", JString(e.uploadPattern)),
      ("matrixParams", JObject([
        ("deb_distribution", JString(e.matrixParams.debDistribution)),
        ("deb_component", JString(e.matrixParams.debComponent)),
        ("deb_architecture", JString(e.matrixParams.debArchitecture))]))])
  }

  function EntriesToJson(es: seq<FileEntry>): Json
  {
    JArray(seq(|es|, i requires 0 <= i < |es| => EntryToJson(es[i])))
  }

  function PackageToJson(p: PackageBlock): Json
  {
    JObject([
      ("name", JString(p.name)),
      ("repo", JString(p.repo)),
      ("subject", JString(p.subject)),
      ("desc", JString(p.desc)),
      ("website_url", JString(p.websiteUrl)),
      ("issue_tracker_url", JString(p.issueTrackerUrl)),
      ("vcs_url", JString(p.vcsUrl)),
      ("github_use_tag_release_notes", JBool(p.githubUseTagReleaseNotes)),
      ("licenses", StringsToJson(p.licenses)),
      ("labels", StringsToJson(p.labels)),
      ("public_download_numebrs", JBool(p.publicDownloadNumbers)),
      ("public_stats", JBool(p.publicStats))])
  }

  function VersionToJson(v: VersionBlock): Json
  {
    JObject([
      ("name", JString(v.name)),
      ("desc", JString(v.desc)),
      ("released", JString(v.released)),
      ("vcs_tag", JString(v.vcsTag)),
      ("gpgSign", JBool(v.gpgSign))])
  }

  /** The dictionary `generate_bintray_descriptor` hands to `json.dump`. */
  function ToJson(d: Descriptor): (j: Json)
    ensures j.JObject? && |j.members| == 4
    ensures j.members[0].0 == "package" && j.members[1].0 == "version"
    ensures j.members[2].0 == "files" && j.members[3].0 == "publish"
    ensures j.members[3].1 == JBool(d.publish)
  {
    JObject([
      ("package", PackageToJson(d.package)),
      ("version", VersionToJson(d.version)),
      ("files", EntriesToJson(d.files)),
      ("publish", JBool(d.publish))])
  }

  // Reading the layout back. Each reader expects the members in the order
  // the program writes them.

  function Members(j: Json, n: nat): Option<seq<(string, Json)>>
  {
    if j.JObject? && |j.members| == n then Some(j.members) else None
  }

  function Field(ms: seq<(string, Json)>, i: nat, key: string): Option<Json>
  {
    if i < |ms| && ms[i].0 == key then Some(ms[i].1) else None
  }

  function StrField(ms: seq<(string, Json)>, i: nat, key: string): Option<string>
  {
    var v :- Field(ms, i, key);
    if v.JString? then Some(v.s) else None
  }

  function BoolField(ms: seq<(string, Json)>, i: nat, key: string): Option<bool>
  {
    var v :- Field(ms, i, key);
    if v.JBool? then Some(v.b) else None
  }

  function StringsFromItems(items: seq<Json>): Option<seq<string>>
  {
    if items == [] then Some([])
    else if !items[0].JString? then None
    else
      var rest :- StringsFromItems(items[1..]);
      Some([items[0].s] + rest)
  }

  function StringsFromJson(j: Json): Option<seq<string>>
  {
    if j.JArray? then StringsFromItems(j.items) else None
  }

  function EntryFromJson(j: Json): Option<FileEntry>
  {
    var ms :- Members(j, 3);
    var included :- StrField(ms, 0, "includePattern");
    var upload :- StrField(ms, 1, "uploadPattern");
    var mj :- Field(ms, 2, "matrixParams");
    var mp :- Members(mj, 3);
    var distribution :- StrField(mp, 0, "deb_distribution");
    var component :- StrField(mp, 1, "deb_component");
    var architecture :- StrField(mp, 2, "deb_architecture");
    Some(FileEntry(included, upload, MatrixParams(distribution, component, architecture)))
  }

  function EntriesFromItems(items: seq<Json>): Option<seq<FileEntry>>
  {
    if items == [] then Some([])
    else
      var e :- EntryFromJson(items[0]);
      var rest :- EntriesFromItems(items[1..]);
      Some([e] + rest)
  }

  function EntriesFromJson(j: Json): Option<seq<FileEntry>>
  {
    if j.JArray? then EntriesFromItems(j.items) else None
  }

  function PackageFromJson(j: Json): Option<PackageBlock>
  {
    var ms :- Members(j, 12);
    var name :- StrField(ms, 0, "name");
    var repo :- StrField(ms, 1, "repo");
    var subject :- StrField(ms, 2, "subject");
    var desc :- StrField(ms, 3, "desc");
    var website :- StrField(ms, 4, "website_url");
    var tracker :- StrField(ms, 5, "issue_tracker_url");
    var vcs :- StrField(ms, 6, "vcs_url");
    var notes :- BoolField(ms, 7, "github_use_tag_release_notes");
    var lj :- Field(ms, 8, "licenses");
    var licenses :- StringsFromJson(lj);
    var bj :- Field(ms, 9, "labels");
    var labels :- StringsFromJson(bj);
    var downloads :- BoolField(ms, 10, "public_download_numebrs");
    var stats :- BoolField(ms, 11, "public_stats");
    Some(PackageBlock(name, repo, subject, desc, website, tracker, vcs, notes,
                      licenses, labels, downloads, stats))
  }

  function VersionFromJson(j: Json): Option<VersionBlock>
  {
    var ms :- Members(j, 5);
    var name :- StrField(ms, 0, "name");
    var desc :- StrField(ms, 1, "desc");
    var released :- StrField(ms, 2, "released");
    var tag :- StrField(ms, 3, "vcs_tag");
    var sign :- BoolField(ms, 4, "gpgSign");
    Some(VersionBlock(name, desc, released, tag, sign))
  }

  /** Reads back a descriptor laid out as `ToJson` lays it out. */
  function FromJson(j: Json): Option<Descriptor>
  {
    var ms :- Members(j, 4);
    var pj :- Field(ms, 0, "package");
    var p :- PackageFromJson(pj);
    var vj :- Field(ms, 1, "version");
    var v :- VersionFromJson(vj);
    var fj :- Field(ms, 2, "files");
    var files :- EntriesFromJson(fj);
    var publish :- BoolField(ms, 3, "publish");
    Some(Descriptor(p, v, files, publish))
  }

  lemma {:induction false} StringsRoundTrip(ss: seq<string>)
    ensures StringsFromJson(StringsToJson(ss)) == Some(ss)
  {
    var items := StringsToJson(ss).items;
    if ss != [] {
      assert items[1..] == StringsToJson(ss[1..]).items;
      StringsRoundTrip(ss[1..]);
      assert ss == [ss[0]] + ss[1..];
    }
  }

  lemma EntryRoundTrip(e: FileEntry)
    ensures EntryFromJson(EntryToJson(e)) == Some(e)
  {
  }

  lemma {:induction false} EntriesRoundTrip(es: seq<FileEntry>)
    ensures EntriesFromJson(EntriesToJson(es)) == Some(es)
  {
    var items := EntriesToJson(es).items;
    if es != [] {
      assert items[0] == EntryToJson(es[0]);
      EntryRoundTrip(es[0]);
      assert items[1..] == EntriesToJson(es[1..]).items;
      EntriesRoundTrip(es[1..]);
      assert es == [es[0]] + es[1..];
    }
  }

  lemma PackageRoundTrip(p: PackageBlock)
    ensures PackageFromJson(PackageToJson(p)) == Some(p)
  {
    StringsRoundTrip(p.licenses);
    StringsRoundTrip(p.labels);
  }

  /** Nothing the descriptor holds, down to the licence and label lists and
      every routing entry, is lost in its structured form. */
  lemma DescriptorRoundTrip(d: Descriptor)
    ensures FromJson(ToJson(d)) == Some(d)
  {
    PackageRoundTrip(d.package);
    EntriesRoundTrip(d.files);
  }
}

=== FILE: packaging.dfy ===
/** The pure part of `generate_package`: the version sanitisation and the
    argument vector handed to fpm. */
module Packaging {
  import opened Paths

  /** The character `str.replace("/", "_")` puts at one position. */
  function Underscored(c: char): char
  {
    if c == '/' then '_' else c
  }

  /** `version.replace("/", "_")`: the version as fpm receives it. */
  function SanitizeVersion(v: string): (r: string)
    ensures |r| == |v|
    ensures forall i :: 0 <= i < |v| ==> r[i] == Underscored(v[i])
    ensures '/' !in r
  {
    if v == [] then [] else [Underscored(v[0])] + SanitizeVersion(v[1..])
  }

  /** Sanitising twice is sanitising once. */
  lemma SanitizeIdempotent(v: string)
    ensures SanitizeVersion(SanitizeVersion(v)) == SanitizeVersion(v)
  {
  }

  /** A version is passed through unchanged exactly when it has no separator. */
  lemma SanitizeFixesExactlySlashFree(v: string)
    ensures SanitizeVersion(v) == v <==> '/' !in v
  {
  }

  /** `flag` is immediately followed by `value` somewhere in `argv`. */
  predicate HasOption(argv: seq<string>, flag: string, value: string)
  {
    exists i :: 0 <= i < |argv| - 1 && argv[i] == flag && argv[i + 1] == value
  }

  /** The fpm command line built by `generate_package`. */
  function FpmArgv(packageType: string, packageName: string, outputDir: Path,
                   arch: string, project: string, version: string): (argv: seq<string>)
    ensures |argv| == 19 && argv[0] == "fpm"
  {
    ["fpm", "-t", packageType,
     "-n", packageName,
     "-p", outputDir,
     "-a", arch,
     "-f",
     "--prefix", Join("usr", "local"),
     "--url", "https://www.github.com/" + project,
     "-v", SanitizeVersion(version),
     "-s", "dir", "."]
  }

  /** Whatever the arguments, the packaging tool is forced (`-f`) to turn the
      directory `.` (`-s dir`) into a package of the requested type, name and
      architecture, written to the output directory, rooted at `usr/local`,
      pointing at the project's GitHub page and carrying the sanitised version. */
  lemma FpmArgvOptions(packageType: string, packageName: string, outputDir: Path,
                       arch: string, project: string, version: string)
    ensures var argv := FpmArgv(packageType, packageName, outputDir, arch, project, version);
      && "-f" in argv
      && HasOption(argv, "-t", packageType) && HasOption(argv, "-n", packageName)
      && HasOption(argv, "-p", outputDir) && HasOption(argv, "-a", arch)
      && HasOption(argv, "--prefix", "usr/local")
      && HasOption(argv, "--url", "https://www.github.com/" + project)
      && HasOption(argv, "-v", SanitizeVersion(version))
      && argv[16..] == ["-s", "dir", "."]
  {
    var argv := FpmArgv(packageType, packageName, outputDir, arch, project, version);
    assert argv[9] == "-f";
    assert argv[1] == "-t" && argv[2] == packageType;
    assert argv[3] == "-n" && argv[4] == packageName;
    assert argv[5] == "-p" && argv[6] == outputDir;
    assert argv[7] == "-a" && argv[8] == arch;
    assert argv[10] == "--prefix" && argv[11] == "usr/local";
    assert argv[12] == "--url" && argv[13] == "https://www.github.com/" + project;
    assert argv[14] == "-v" && argv[15] == SanitizeVersion(version);
  }

  /** Whatever the arguments, every value that follows a `-v` in the fpm
      command line is free of separators. */
  lemma FpmVersionArgumentSlashFree(packageType: string, packageName: string,
                                       outputDir: Path, arch: string,
                                       project: string, version: string)
    ensures var argv := FpmArgv(packageType, packageName, outputDir, arch, project, version);
      forall i :: 0 <= i < |argv| - 1 && argv[i] == "-v" ==> '/' !in argv[i + 1]
  {
  }
}

=== FILE: paths.dfy ===
/** POSIX path manipulation as `os.path.join` performs it, and the
    "strictly inside a directory" relation that `os.listdir` observes. */
module Paths {

  type Path = string

  /** `os.path.join(a, b)`: an absolute `b` replaces `a`; otherwise a single
      separator is inserted unless `a` is empty or already ends with one. */
  function Join(a: Path, b: Path): (r: Path)
    ensures |b| > 0 && b[0] == '/' ==> r == b
    ensures (|b| == 0 || b[0] != '/') ==>
              |a| + |b| <= |r| && r[..|a|] == a && r[|r| - |b|..] == b
  {
    if |b| > 0 && b[0] == '/' then b
    else if a == [] || a[|a| - 1] == '/' then a + b
    else a + "/" + b
  }

  /** Joining a relative part adds at most one separator and nothing else. */
  lemma JoinInsertsOnlySeparator(a: Path, b: Path)
    requires |b| == 0 || b[0] != '/'
    ensures Join(a, b) == a + b || Join(a, b) == a + "/" + b
  {
  }

  /** `os.path.join(a, parts[0], parts[1], ...)`. */
  function JoinAll(a: Path, parts: seq<Path>): Path
    decreases |parts|
  {
    if parts == [] then a else JoinAll(Join(a, parts[0]), parts[1..])
  }

  /** `p` names an entry strictly inside directory `dir`: it extends
      `os.path.join(dir, "")`, the directory name with its trailing separator. */
  predicate Under(p: Path, dir: Path)
  {
    var d := Join(dir, "");
    |d| < |p| && p[..|d|] == d
  }
}

=== FILE: results.dfy ===
/** Failure values of the build helper.
    Every failure in the source is a raised exception that `main` turns into
    `sys.exit(str(e))`; here each one is a constructor of `Error`, and
    `Result` / `Option` carry them with `:-` propagation. */
module Results {

  datatype Option<+T> = None | Some(value: T) {
    predicate IsFailure() { None? }

    function PropagateFailure<U>(): Option<U>
      requires None?
    {
      None
    }

    function Extract(): T
      requires Some?
    {
      value
    }
  }

  /** Operating-system failures raised by `os.listdir` and `os.makedirs`. */
  datatype OsErrorKind = NoSuchFile | NotADirectory | FileExists

  datatype Error =
    | TmpDirExhausted                   // generate_tmp_dir: five colliding names
    | FpmNotFound                       // generate_package: `which fpm` found nothing
    | FpmFailed                         // generate_package: fpm exited non-zero
    | OutputDirNotEmpty(dir: string)    // build_python / build_go prologue
    | DescriptorExists(path: string)    // generate_bintray_descriptor refuses to overwrite
    | InvalidLanguage(language: string) // main: language other than python / go
    | RepoCloneFailed(url: string)      // build_python: GitPython's clone raised
    | SetupFailed                       // build_python: setup.py install exited non-zero
    | GitCloneFailed                    // build_go: `git clone` exited non-zero
    | GoGetFailed                       // build_go: `go get` exited non-zero
    | GoInstallFailed                   // build_go: `go install` exited non-zero
    | OsError(kind: OsErrorKind, path: string)

  datatype Result<+T> = Ok(value: T) | Err(error: Error) {
    predicate IsFailure() { Err? }

    function PropagateFailure<U>(): Result<U>
      requires Err?
    {
      Err(error)
    }

    function Extract(): T
      requires Ok?
    {
      value
    }
  }

  /** The text `main` exits with for the exceptions the program raises itself;
      `None` for those whose text comes from a library or the operating system. */
  function Message(e: Error): (m: Option<string>)
    ensures m.None? <==> e.RepoCloneFailed? || e.OsError?
  {
    match e
    case TmpDirExhausted => Some("Unable to generate a tmp direcctory")
    case FpmNotFound =>
      Some("Packaging is not possible (fpm not found). Please install fpm (gem install fpm).")
    case FpmFailed => Some("Error while cloning project")
    case OutputDirNotEmpty(dir) => Some("Build error: " + dir + " is not empty.")
    case DescriptorExists(path) => Some("File " + path + " exists")
    case InvalidLanguage(language) => Some("Invalid language " + language)
    case SetupFailed => Some("Error while getting dependencies project")
    case GitCloneFailed => Some("Error while cloning project")
    case GoGetFailed => Some("Error while getting dependencies project")
    case GoInstallFailed => Some("Error while build the project")
    case RepoCloneFailed(_) => None
    case OsError(_, _) => None
  }
}
